=== FILE: README.md ===
# Tool-calling agent loop of the AI data scientist

This project models the agent execution loop of the multi-agent "AI data
scientist" system in Dafny. Each agent is a two-node graph. The "agent" node
sends a fixed system message plus the conversation log to the chat model and
appends the model's reply. A routing predicate then ends the run when that
reply requests no tool; otherwise the "tools" node runs every requested tool
in order and appends one tool message per call. Control then goes back to
"agent". The model also covers the tools around the loop: the coder's
`python_repl_tool` and `generate_python_code`, and the data analyst's
`answer_question_about_data` and `visualize_data`. For both agents it models
the registry built as a name-to-tool dict.

The system has several pieces that the model cannot see, and each becomes a
parameter:
- the chat model is a function from its input message list to a reply or an
  exception;
- the Python REPL, the code-generation chain and the text-to-SQL service are
  functions that return a value or raise;
- `json.dumps` is a function that encodes a value or raises.

A Python exception escaping a step becomes a `Fault`, and a run ends as
`Finished`, `Crashed` or `OutOfSteps`.

Modules, leaf first:
- `Values`: `Result`, JSON-like `Value`, and `Exc`, an exception seen as its
  `str`/`repr` plus whether it is an `Exception`.
- `Messages`: `ToolCall`, `Message`, the `Answers` correspondence and message
  counts.
- `Tools`: tool outcomes, named tools, the `ByName` dict comprehension and
  argument reading.
- `Agent`: the model step, the routing predicate and the dispatch step, shared
  by the `Agent` base class and the coder module.
- `Graph`: the wiring, one node step, and a run bounded by a step budget.
- `Transcript`: the shape of what a run appends, as tool rounds.
- `Loop`: properties of whole runs of the coder graph.
- `Coder`, `CoderRun`: the coder's tools, registry and dispatch step, and one
  complete run.
- `DataAnalyst`: the analyst's tools and registry.

How the code handles failures, and what the model keeps of it:
- `tool_node` catches nothing. An unregistered tool name raises `KeyError`
  at `tools_by_name[...]`. A call the tool's argument schema refuses raises a
  validation error. An exception from the tool body (`generate_python_code`
  lets its chain's exceptions through) escapes the step, and so does a result
  `json.dumps` cannot encode. The model keeps these apart as four `Fault`s:
  `KeyError`, `ArgsRejected`, `ToolRaised` and `DumpsRaised`. Only
  `python_repl_tool` and the two analyst tools capture failures inside their
  own bodies.
- `python_repl_tool` catches every `BaseException`. The analyst tools catch
  only `Exception`, so a `KeyboardInterrupt` or `SystemExit` still escapes
  them.
- The source sets no limit on the number of turns. The step budget of a run
  stands for the graph runtime's recursion limit on node executions.
- A node that raises commits none of its update: the log after it is the log
  before it.

## Model

| member | source | states |
|---|---|---|
| `Agent.ShouldContinue` | agents/agent.py:44-53 | "end" exactly when the last message is a reply with an empty tool-call list. "continue" exactly when that list is non-empty. An empty log raises IndexError; a last message that is not a model reply raises AttributeError. |
| `Agent.CallModel` | agents/agent.py:35-42 | Succeeds exactly when the model answers the system message plus the log. The update is then one AI message with the reply's content and tool calls, so the system message is never part of it. A raising model raises out of the step. |
| `Agent.Answer` | agents/agent.py:25-31 | One call is answered exactly when its name is registered, the tool returns, and `json.dumps` encodes the result. The answer is a tool message with the call's name and id and the encoded result. Otherwise the step raises KeyError, the schema refusal, the tool's exception or the encoder's exception. |
| `Agent.Dispatch` | agents/agent.py:23-33 | Succeeds exactly when every call can be answered. It then yields one tool message per call, in call order, each equal to that call's answer. Otherwise it raises the fault of the first failing call, and the answers before it are dropped. |
| `Agent.ToolNode` | agents/agent.py:21-33 | Answers the tool calls of the last message: same count and order, each carrying its call's id and name. Each content is the encoded result of the registered tool applied to the call's args. The step raises unless every call can be answered. |
| `Agent.DispatchRaisesFirstFailure` | agents/agent.py:23-33 | When call `j` is the first that cannot be answered, the loop raises exactly that call's fault. |
| `Agent.UnknownToolRaises` | agents/agent.py:22-25 | A call naming an unregistered tool is never turned into a message. If every earlier call succeeds, the step raises KeyError with that name. |
| `Tools.ByName` | agents/coder.py:93 | `{tool.name: tool for tool in tools}`: the keys are exactly the listed names, and each name maps to the last listed tool carrying it. |
| `Graph.Step` | agents/coder.py:146-179 | The "agent" node appends exactly the model's reply to the system message plus the log, as one AI message with the reply's content and tool calls, and moves to the "end" target when the reply is tool-free, or to the "continue" target when it requests tools. The "tools" node appends exactly the dispatch step's answers to the last reply's calls and moves along the plain edge; it raises exactly when the dispatch step does, with its fault. A raising node leaves the log as it was: at "agent" the fault is the model's own exception when it raises, or a route missing from the branch map, at "tools", on a log ending in a model reply, a tool-call fault. The log only grows. |
| `Graph.Exec` | agents/coder.py:146-183 | A run of the compiled graph only appends to the log it started from, whichever way it ends. |
| `Graph.Run` | agents/coder.py:146-183 | The graph `create_coder_agent` compiles, run from its entry node "agent" with "continue" to "tools", "end" to END and "tools" back to "agent": whatever the outcome, the run only appends to the log it was given. |
| `Loop.StepKeepsShape` | agents/coder.py:149-179 | Under the coder wiring, "agent" turns complete rounds into complete rounds plus a reply, ending if it is tool-free. "tools" completes the pending round. A raise comes from the model at "agent" or from a tool call at "tools". |
| `Loop.ExecShape` | agents/coder.py:149-179 | From any node where the round invariant holds, the whole run keeps it. |
| `Loop.RunShape` | agents/coder.py:146-183 | A run appends complete tool rounds. If it finishes, it then appends one tool-free reply. If it stops early, at most one reply is left with unanswered calls. |
| `Loop.RunEndsOnlyOnToolFreeReply` | agents/coder.py:157-175 | A run reaches END only when the last logged message is a reply with no tool call, and the routing predicate reads "end" on the final log. |
| `Loop.RunAnswersEveryCall` | agents/coder.py:96-107 | In a finished run, the appended messages hold exactly as many tool messages as requested tool calls. |
| `Loop.RunAnswersLatestReply` | agents/coder.py:98-105 | Every tool message a run appends carries the id and name of the call at its own position in the most recent model reply, with only tool messages in between. |
| `Loop.RunNeverStoresSystemPrompt` | agents/coder.py:114-120 | The system message is sent to the model on every step but never stored: a run leaves the number of system messages in the log unchanged. |
| `Loop.ToolFreeReplyFinishes` | agents/coder.py:157-175 | A reply without tool calls ends the run right after the model step, with that reply as the only appended message. |
| `Loop.ToolRequestLoopsBack` | agents/coder.py:179 | After a reply requesting tools, the run stores the reply, dispatches it, stores the answers, then asks the model again from the longer log. |
| `Loop.ToolFaultCrashes` | agents/coder.py:96-107 | After a reply requesting tools, a dispatch step that raises ends the run with that tool-call fault. The reply stays in the log, none of the answers are stored, and the model gets no further turn. |
| `Loop.ModelFaultCrashes` | agents/coder.py:118-120 | A raising model ends the run at once: the run crashes with the model's own exception and the log is left as it was. |
| `Loop.MoreStepsSameEnd` | agents/coder.py:182 | A compiled graph that finishes or raises within a step budget ends the same way with any larger budget. |
| `Coder.ReplReport` | agents/coder.py:40-47 | The report starts with "Failed to execute. Error: " exactly when the REPL raised, and then reads back as the exception's repr. On success, the report quotes the code verbatim after the python fence heading and ends with "Stdout: " followed by the output. |
| `Coder.PythonReplTool` | agents/coder.py:34-47 | Whatever the REPL does, a call with a string `code` argument returns the report and never raises. A call without one is refused by the argument schema before the REPL runs. |
| `Coder.CodegenFailureRaises` | agents/coder.py:81-107 | `generate_python_code` does not catch its chain's exception. A lone call of it whose chain raises is never answered: the dispatch step raises `ToolRaised` with that exception. |
| `Coder.ToolsByName` | agents/coder.py:90-93 | The registry has exactly the keys `python_repl_tool` and `generate_python_code`, each bound to its own tool. |
| `Coder.ToolNode` | agents/coder.py:96-107 | On a log ending in a model reply, the step succeeds exactly when every call can be answered from the two-tool registry. Answers preserve count, order, ids and names, and every answer names one of the two tools. Each answer's content is `json.dumps` of its tool's result on the call's args. A call naming any other tool makes the step raise. |
| `Coder.UnknownToolRaisesKeyError` | agents/coder.py:98-99 | A call naming neither coder tool, after calls that can all be answered, makes the step raise exactly `KeyError` with that name. |
| `Coder.ReplCallsAreAnswered` | agents/coder.py:40-105 | Every `python_repl_tool` call with a string `code` is answered, whatever the REPL does, as long as the report can be encoded. The answer carries the call's name and id and the encoded report. |
| `Coder.ReplCallRefused` | agents/coder.py:35-37 | A `python_repl_tool` call without a string `code` never reaches the REPL. `tool_node` does not catch the schema refusal either, so the step raises `ArgsRejected` naming `code`. |
| `Coder.ReplFailureIsAnswered` | agents/coder.py:40-45 | A lone `python_repl_tool` call whose code raises is answered by one tool message with the call's id, holding the encoded failure report. |
| `CoderRun.FailingReplRunFinishes` | agents/coder.py:146-183 | Request, failing REPL, then a tool-free reply: the run finishes after appending exactly the request, the failure report and the final reply. |
| `CoderRun.FailingCodegenRunCrashes` | agents/coder.py:81-107 | The contrast with a failing REPL: when the code generator raises, the run crashes with the chain's exception right after the request is stored, and no tool message is stored for it. |
| `DataAnalyst.AnswerTracesVanna` | agents/data_analyst.py:50-58 | A result dict whose `sql` is a string was produced by the whole pipeline on that SQL. The service generated the SQL for the question with data visible. Running it gave the stringified `execution_result`, and its summary is the `answer`. |
| `DataAnalyst.AnswerQuestion` | agents/data_analyst.py:43-64 | Returns a dict with exactly the keys sql, execution_result and answer. `sql` is None exactly when the pipeline raised; then execution_result is None and answer is the exception text. On success the three fields are the SQL, the stringified result and the summary. Only a non-`Exception` escapes, and it is the pipeline's own exception, unchanged. |
| `DataAnalyst.PlotTracesVanna` | agents/data_analyst.py:74-85 | A visualisation dict whose `sql` is a string was produced by the whole pipeline on that SQL. The service generated the SQL without seeing data, and running it gave the stringified `execution_result`. `plotly_code` was generated from the question, the SQL and the "Running df.dtypes gives:" metadata. `plotly_figure` is the figure dict built from that code and the result. |
| `DataAnalyst.VisualizeData` | agents/data_analyst.py:66-92 | Returns a dict with exactly the keys sql, execution_result, plotly_code and plotly_figure. `sql` is None exactly when the pipeline raised; then plotly_code and plotly_figure are None and execution_result is the exception text. Only a non-`Exception` escapes, and it is the pipeline's own exception, unchanged. |
| `DataAnalyst.AnalystCallRefused` | agents/data_analyst.py:43-44 | A call to either registered analyst tool without a string `user_input` never reaches the tool body. The dispatch step raises the schema refusal naming `user_input`. |
| `DataAnalyst.ToolsByName` | agents/data_analyst.py:94-98 | The registry has exactly the keys `answer_question_about_data` and `visualize_data`, each running its own body on a string question and refusing a call without one. |
| `DataAnalyst.AnalystToolsCatchExceptions` | agents/data_analyst.py:50-92 | A registered analyst tool called with a string question returns a result dict, unless its own pipeline raised something that is not an `Exception`. The other tool's pipeline plays no part. |

## Left out

- Supervisor (agents/supervisor.py): it consists only of library calls whose behaviour is not visible. The `output_mode="full_history"` merging of `create_supervisor` and its `InMemorySaver` checkpointer are not modelled.
- Slides generator (agents/slides_generator.py): a prompt wrapper with a two-entry registry, the same pattern as the coder's.
- Wiring of `Agent.create_agent` (agents/agent.py:55-72): its "end" branch targets tkinter's `END` (the string "end"), not the graph's END, so that edge leads to no node. Only the coder's wiring, whose "end" leads to the graph's END, is modelled.
- Graph runtime internals: graph compilation, `bind_tools`, `with_structured_output`, and the id-based merging of the `add_messages` reducer (modelled as list append). The step budget of `Graph.Exec` stands in for the runtime's recursion limit, whose value is not modelled.
- Language-model calls and prompt text: the chat model, the `generate_python_code` chain (agents/coder.py:50-83) and every text-to-SQL call are parameters that reply or raise. The `config` argument of the coder's `call_model` is not modelled.
- State between calls: a tool is a fixed function of its arguments, and the model is a fixed function of its input. So the REPL's persistent interpreter state and any nondeterminism of the model are not modelled.
- `json.dumps` and `repr`/`str` of exceptions are opaque; their output formats are not modelled.
- The `print` calls inside `python_repl_tool` are not modelled. They sit inside its `try`, so a failure there would be reported like a REPL failure.
- Model rebinding in `get_tools_by_name` (agents/data_analyst.py:96): only the returned registry is modelled, built once per call.
- Data-analyst construction: `DataAnalystAgent.__init__` passes four arguments to a three-parameter base constructor (agents/data_analyst.py:40), and its tools are decorated instance methods. The tools are modelled as standalone functions of the text-to-SQL service.
- Ingestion, training and model-client configuration (ingest_data.py, train.py, agents/train_vanna.py, agents/llm.py, agents/llm/): I/O and environment setup outside the loop.
- Interrupting a run from outside: the source has no such path, so a run ends only as finished, raised or out of steps.

=== FILE: agent.dfy ===
/**
 The three steps of the tool-calling agent: the model step (`call_model`),
 the routing predicate (`should_continue`) and the dispatch step
 (`tool_node`).  The base `Agent` class and the coder module carry the same
 three steps; both are modelled here once.  A step that raises in the source
 yields `Err` with the uncaught exception; a step that succeeds yields the
 messages it hands to the `add_messages` reducer.
 */
module Agent {
  import opened Values
  import opened Messages
  import opened Tools

  /** The labels `should_continue` returns: "continue" and "end". */
  datatype Route = Continue | End

  /** An exception that escapes a step and therefore the whole graph run. */
  datatype Fault =
    | IndexError                               // `messages[-1]` on an empty log
    | AttributeError                           // the last message is not a model reply and has no `tool_calls`
    | KeyError(name: string)                   // `tools_by_name[name]` for an unregistered name
    | ArgsRejected(name: string, field: string) // the tool's argument schema refused the call
    | ToolRaised(name: string, exc: Exc)       // the tool body raised
    | DumpsRaised(name: string, exc: Exc)      // `json.dumps` could not encode the tool's result
    | ModelRaised(exc: Exc)                    // the chat model call raised
    | NoBranch(route: Route)                   // the route has no entry in the conditional-edge map

  /** The faults a single tool call can raise out of the dispatch step. */
  predicate IsToolFault(f: Fault) {
    f.KeyError? || f.ArgsRejected? || f.ToolRaised? || f.DumpsRaised?
  }

  /** What the chat model does with an input message list: reply with text
      and tool calls, or raise. */
  datatype ModelReply = Reply(content: string, toolCalls: seq<ToolCall>) | ModelFailed(exc: Exc)

  /** The chat model, bound to its tools once at construction; its reply is
      a function of the message list it is given. */
  type Model = seq<Message> -> ModelReply

  /** `json.dumps`, which raises on values it cannot encode. */
  type Dumps = Value -> Result<string, Exc>

  /** The fixed system text of `call_model`.  The two adjacent literals of
      the source are joined with no space between them. */
  const SystemPrompt: string :=
    "You are a coder agent, please use generate_python_code tool to generate code given user's intent"
    + "And then use python_repl_tool to execute your code, and then return your result."

  /** The `add_messages` reducer, reduced to list append. */
  function AddMessages(log: seq<Message>, update: seq<Message>): (r: seq<Message>)
    ensures |r| == |log| + |update|
    ensures r[..|log|] == log && r[|log|..] == update
  {
    log + update
  }

  /** The message list handed to the model: the system message, then the
      whole log unchanged. */
  function ModelInput(log: seq<Message>): (r: seq<Message>)
    ensures |r| == |log| + 1
    ensures r[0] == SystemMessage(SystemPrompt) && r[1..] == log
  {
    [SystemMessage(SystemPrompt)] + log
  }

  /** The model step.  Its update is the single reply of the model to the
      system message plus the log; the system message itself is never part
      of the update.  A raising model call raises out of the step. */
  function CallModel(model: Model, log: seq<Message>): (r: Result<seq<Message>, Fault>)
    ensures r.Ok? <==> model(ModelInput(log)).Reply?
    ensures r.Ok? ==>
              && |r.value| == 1
              && r.value[0].AiMessage?
              && r.value[0].content == model(ModelInput(log)).content
              && r.value[0].toolCalls == model(ModelInput(log)).toolCalls
    ensures r.Err? ==> r.error == ModelRaised(model(ModelInput(log)).exc)
  {
    match model(ModelInput(log))
    case Reply(content, calls) => Ok([AiMessage(content, calls)])
    case ModelFailed(e) => Err(ModelRaised(e))
  }

  /** The routing predicate.  It reads the last message of the log: "end"
      exactly when that reply requests no tool, "continue" when it requests
      one or more.  An empty log or a last message other than a model reply
      raises. */
  function ShouldContinue(log: seq<Message>): (r: Result<Route, Fault>)
    ensures |log| == 0 <==> r == Err(IndexError)
    ensures |log| > 0 && !log[|log| - 1].AiMessage? <==> r == Err(AttributeError)
    ensures r == Ok(End) <==> |log| > 0 && IsToolFreeReply(log[|log| - 1])
    ensures r == Ok(Continue) <==> |log| > 0 && IsToolRequest(log[|log| - 1])
  {
    if |log| == 0 then Err(IndexError)
    else
      var last := log[|log| - 1];
      if !last.AiMessage? then Err(AttributeError)
      else if |last.toolCalls| == 0 then Ok(End)
      else Ok(Continue)
  }

  /** One iteration of the `tool_node` loop: look the tool up by the call's
      name, invoke it on the call's arguments, encode the result, and wrap
      it in a tool message carrying the call's name and id.  Nothing is
      caught: an unknown name, a refused argument, a raising tool and an
      unencodable result all raise out of the step. */
  function Answer(reg: Registry, dumps: Dumps, call: ToolCall): (r: Result<Message, Fault>)
    ensures r.Err? ==> IsToolFault(r.error)
    ensures call.name !in reg ==> r == Err(KeyError(call.name))
    ensures call.name in reg && reg[call.name](call.args).Rejected? ==>
              r == Err(ArgsRejected(call.name, reg[call.name](call.args).field))
    ensures call.name in reg && reg[call.name](call.args).Raised? ==>
              r == Err(ToolRaised(call.name, reg[call.name](call.args).exc))
    ensures call.name in reg && reg[call.name](call.args).Returned? && dumps(reg[call.name](call.args).value).Err? ==>
              r == Err(DumpsRaised(call.name, dumps(reg[call.name](call.args).value).error))
    ensures r.Ok? <==>
              && call.name in reg
              && reg[call.name](call.args).Returned?
              && dumps(reg[call.name](call.args).value).Ok?
    ensures r.Ok? ==>
              && r.value.ToolMessage?
              && r.value.name == call.name
              && r.value.toolCallId == call.id
              && Ok(r.value.content) == dumps(reg[call.name](call.args).value)
  {
    if call.name !in reg then Err(KeyError(call.name))
    else
      match reg[call.name](call.args)
      case Rejected(field) => Err(ArgsRejected(call.name, field))
      case Raised(e) => Err(ToolRaised(call.name, e))
      case Returned(v) =>
        match dumps(v)
        case Err(e) => Err(DumpsRaised(call.name, e))
        case Ok(text) => Ok(ToolMessage(text, call.name, call.id))
  }

  /** The `for tool_call in ...tool_calls` loop of `tool_node`.  It succeeds
      exactly when every call is answered, and then yields one answer per
      call in call order.  Otherwise it raises the fault of the first call
      that fails; the answers of the calls before it are discarded. */
  function Dispatch(reg: Registry, dumps: Dumps, calls: seq<ToolCall>): (r: Result<seq<Message>, Fault>)
    ensures r.Ok? <==> AllAnswerable(reg, dumps, calls)
    ensures r.Ok? ==> Answers(calls, r.value)
    ensures r.Ok? ==> forall i :: 0 <= i < |calls| ==> r.value[i] == Answer(reg, dumps, calls[i]).value
    ensures r.Err? ==> exists j :: FirstFailure(reg, dumps, calls, j) && r.error == Answer(reg, dumps, calls[j]).error
    decreases |calls|
  {
    if |calls| == 0 then Ok([])
    else
      match Answer(reg, dumps, calls[0])
      case Err(f) =>
        assert FirstFailure(reg, dumps, calls, 0);
        Err(f)
      case Ok(m) =>
        match Dispatch(reg, dumps, calls[1..])
        case Err(f) =>
          var j :| FirstFailure(reg, dumps, calls[1..], j) && f == Answer(reg, dumps, calls[1..][j]).error;
          assert FirstFailure(reg, dumps, calls, j + 1);
          Err(f)
        case Ok(ms) =>
          assert forall i :: 1 <= i < |calls| ==> calls[i] == calls[1..][i - 1];
          Ok([m] + ms)
  }

  /** Every one of `calls` can be answered. */
  predicate AllAnswerable(reg: Registry, dumps: Dumps, calls: seq<ToolCall>) {
    forall i :: 0 <= i < |calls| ==> Answer(reg, dumps, calls[i]).Ok?
  }

  /** Call `j` is the first of `calls` that cannot be answered. */
  predicate FirstFailure(reg: Registry, dumps: Dumps, calls: seq<ToolCall>, j: int) {
    && 0 <= j < |calls|
    && Answer(reg, dumps, calls[j]).Err?
    && forall i :: 0 <= i < j ==> Answer(reg, dumps, calls[i]).Ok?
  }

  /** The dispatch step: answer the tool calls of the last message.  Its
      update holds one tool message per call, in call order, carrying the
      call's id and name and the encoded result of the tool registered under
      that name applied to the call's arguments. */
  function ToolNode(reg: Registry, dumps: Dumps, log: seq<Message>): (r: Result<seq<Message>, Fault>)
    ensures |log| == 0 ==> r == Err(IndexError)
    ensures |log| > 0 && !log[|log| - 1].AiMessage? ==> r == Err(AttributeError)
    ensures r.Ok? ==> |log| > 0 && log[|log| - 1].AiMessage? && Answers(log[|log| - 1].toolCalls, r.value)
    ensures r.Ok? ==> forall i :: 0 <= i < |r.value| ==>
              var call := log[|log| - 1].toolCalls[i];
              && call.name in reg
              && reg[call.name](call.args).Returned?
              && Ok(r.value[i].content) == dumps(reg[call.name](call.args).value)
    ensures |log| > 0 && log[|log| - 1].AiMessage? ==>
              && (r.Ok? <==> AllAnswerable(reg, dumps, log[|log| - 1].toolCalls))
              && (r.Err? ==> IsToolFault(r.error))
  {
    if |log| == 0 then Err(IndexError)
    else if !log[|log| - 1].AiMessage? then Err(AttributeError)
    else Dispatch(reg, dumps, log[|log| - 1].toolCalls)
  }

  /** The dispatch loop raises the fault of its first failing call. */
  lemma {:induction false} DispatchRaisesFirstFailure(reg: Registry, dumps: Dumps, calls: seq<ToolCall>, j: int)
    requires FirstFailure(reg, dumps, calls, j)
    ensures Dispatch(reg, dumps, calls) == Err(Answer(reg, dumps, calls[j]).error)
    decreases |calls|
  {
    if j > 0 {
      assert Answer(reg, dumps, calls[0]).Ok?;
      assert FirstFailure(reg, dumps, calls[1..], j - 1);
      DispatchRaisesFirstFailure(reg, dumps, calls[1..], j - 1);
    }
  }

  /** An unregistered tool name is never turned into a message: the step
      raises `KeyError` for the first such call unless an earlier call has
      already raised. */
  lemma UnknownToolRaises(reg: Registry, dumps: Dumps, log: seq<Message>, j: nat)
    requires |log| > 0 && log[|log| - 1].AiMessage?
    requires j < |log[|log| - 1].toolCalls| && log[|log| - 1].toolCalls[j].name !in reg
    requires AllAnswerable(reg, dumps, log[|log| - 1].toolCalls[..j])
    ensures ToolNode(reg, dumps, log) == Err(KeyError(log[|log| - 1].toolCalls[j].name))
  {
    var calls := log[|log| - 1].toolCalls;
    forall i | 0 <= i < j ensures Answer(reg, dumps, calls[i]).Ok? {
      assert calls[..j][i] == calls[i];
    }
    DispatchRaisesFirstFailure(reg, dumps, calls, j);
  }
}

=== FILE: coder.dfy ===
/**
 The coder agent's two tools, its registry, and its dispatch step over that
 registry.  The coder's model step, routing predicate and wiring are those of
 the `Agent` and `Graph` modules.
 */
module Coder {
  import opened Values
  import opened Messages
  import opened Tools
  import opened Agent

  /** The Python REPL: runs code and yields its captured output, or raises. */
  type Repl = string -> Result<string, Exc>

  /** The structured-output chain behind `generate_python_code`: yields the
      `code` field of the model's answer, or raises. */
  type CodeGenerator = string -> Result<string, Exc>

  const FailurePrefix: string := "Failed to execute. Error: "
  const SuccessHead: string := "Successfully executed:\n```python\n"
  const StdoutHead: string := "\n```\nStdout: "

  /** How a report of `python_repl_tool` reads back: a failure with the
      exception's repr, a success with everything after the heading, or
      neither. */
  datatype ReportView = FailedWith(repr: string) | SucceededWith(body: string) | Unrecognised

  /** Classify a report by its heading. */
  function ReadReport(s: string): ReportView {
    if StartsWith(s, FailurePrefix) then FailedWith(s[|FailurePrefix|..])
    else if StartsWith(s, SuccessHead) then SucceededWith(s[|SuccessHead|..])
    else Unrecognised
  }

  /** The string `python_repl_tool` returns for `code`.  Every exception,
      `BaseException` included, is caught and reported after the failure
      heading by its repr; on success the report quotes the code verbatim in
      a python fence and ends with the captured output. */
  function ReplReport(repl: Repl, code: string): (r: string)
    ensures repl(code).Err? <==> StartsWith(r, FailurePrefix)
    ensures repl(code).Err? ==> ReadReport(r) == FailedWith(repl(code).error.repr)
    ensures repl(code).Ok? ==>
              && ReadReport(r) == SucceededWith(code + StdoutHead + repl(code).value)
              && |SuccessHead| + |code| <= |r|
              && r[|SuccessHead|..|SuccessHead| + |code|] == code
              && EndsWith(r, "Stdout: " + repl(code).value)
  {
    match repl(code)
    case Err(e) =>
      var r := FailurePrefix + e.repr;
      assert r[..|FailurePrefix|] == FailurePrefix;
      r
    case Ok(out) =>
      var r := SuccessHead + code + StdoutHead + out;
      assert r[..|SuccessHead|] == SuccessHead;
      assert r[0] == 'S' && FailurePrefix[0] == 'F';
      assert r[|SuccessHead|..] == code + StdoutHead + out;
      assert r[|r| - |"Stdout: " + out|..] == "Stdout: " + out;
      r
  }

  /** `python_repl_tool` as a tool: a call with a string `code` argument
      always returns the report, whatever the REPL does. */
  function PythonReplTool(repl: Repl): (t: Tool)
    ensures forall args: Args :: t(args).Returned? <==> StringArg(args, "code").Ok?
    ensures forall args: Args :: StringArg(args, "code").Ok? ==>
              t(args) == Returned(Str(ReplReport(repl, args["code"].s)))
    ensures forall args: Args :: StringArg(args, "code").Err? ==> t(args) == Rejected("code")
  {
    (args: Args) =>
      match StringArg(args, "code")
      case Err(field) => Rejected(field)
      case Ok(code) => Returned(Str(ReplReport(repl, code)))
  }

  /** `generate_python_code` as a tool: the generated code, or the chain's
      exception, which the tool does not catch. */
  function GeneratePythonCode(codegen: CodeGenerator): (t: Tool)
    ensures forall args: Args :: StringArg(args, "user_input").Ok? ==>
              var q := args["user_input"].s;
              && (codegen(q).Ok? ==> t(args) == Returned(Str(codegen(q).value)))
              && (codegen(q).Err? ==> t(args) == Raised(codegen(q).error))
    ensures forall args: Args :: StringArg(args, "user_input").Err? ==> t(args) == Rejected("user_input")
  {
    (args: Args) =>
      match StringArg(args, "user_input")
      case Err(field) => Rejected(field)
      case Ok(q) =>
        match codegen(q)
        case Err(e) => Raised(e)
        case Ok(code) => Returned(Str(code))
  }

  /** The list `tools` of the coder module. */
  function CoderTools(repl: Repl, codegen: CodeGenerator): seq<NamedTool> {
    [NamedTool("python_repl_tool", PythonReplTool(repl)),
     NamedTool("generate_python_code", GeneratePythonCode(codegen))]
  }

  /** The registry `tools_by_name`: exactly the two tool names, each bound
      to its own tool. */
  function ToolsByName(repl: Repl, codegen: CodeGenerator): (reg: Registry)
    ensures reg.Keys == {"python_repl_tool", "generate_python_code"}
    ensures reg["python_repl_tool"] == PythonReplTool(repl)
    ensures reg["generate_python_code"] == GeneratePythonCode(codegen)
  {
    var tools := CoderTools(repl, codegen);
    assert Names(tools) == {"python_repl_tool", "generate_python_code"} by {
      assert tools[0].name == "python_repl_tool" && tools[1].name == "generate_python_code";
    }
    ByNameDistinct(tools);
    ByName(tools)
  }

  /** The coder's `tool_node`: the dispatch step over its own registry.  A
      call to any name other than its two tools makes the step raise. */
  function ToolNode(repl: Repl, codegen: CodeGenerator, dumps: Dumps, log: seq<Message>): (r: Result<seq<Message>, Fault>)
    ensures r.Ok? ==>
              && |log| > 0 && log[|log| - 1].AiMessage?
              && Answers(log[|log| - 1].toolCalls, r.value)
              && forall i :: 0 <= i < |r.value| ==>
                   r.value[i].name in {"python_repl_tool", "generate_python_code"}
    ensures r.Ok? ==> forall i :: 0 <= i < |r.value| ==>
              var call := log[|log| - 1].toolCalls[i];
              && ToolsByName(repl, codegen)[call.name](call.args).Returned?
              && Ok(r.value[i].content) == dumps(ToolsByName(repl, codegen)[call.name](call.args).value)
    ensures |log| > 0 && log[|log| - 1].AiMessage? ==>
              (r.Ok? <==> AllAnswerable(ToolsByName(repl, codegen), dumps, log[|log| - 1].toolCalls))
    ensures |log| > 0 && log[|log| - 1].AiMessage? &&
            (exists c :: c in log[|log| - 1].toolCalls && c.name !in {"python_repl_tool", "generate_python_code"})
            ==> r.Err?
  {
    var reg := ToolsByName(repl, codegen);
    Agent.ToolNode(reg, dumps, log)
  }

  /** A call to any name other than the two coder tools raises `KeyError`
      with that name, unless an earlier call has already raised. */
  lemma UnknownToolRaisesKeyError(repl: Repl, codegen: CodeGenerator, dumps: Dumps, log: seq<Message>, j: nat)
    requires |log| > 0 && log[|log| - 1].AiMessage?
    requires j < |log[|log| - 1].toolCalls|
    requires log[|log| - 1].toolCalls[j].name !in {"python_repl_tool", "generate_python_code"}
    requires AllAnswerable(ToolsByName(repl, codegen), dumps, log[|log| - 1].toolCalls[..j])
    ensures ToolNode(repl, codegen, dumps, log) == Err(KeyError(log[|log| - 1].toolCalls[j].name))
  {
    UnknownToolRaises(ToolsByName(repl, codegen), dumps, log, j);
  }

  /** Every `python_repl_tool` call with a string `code` argument is
      answered, whatever the REPL does, provided its report can be encoded:
      the answer carries the call's name and id and the encoded report. */
  lemma ReplCallsAreAnswered(repl: Repl, codegen: CodeGenerator, dumps: Dumps, call: ToolCall)
    requires call.name == "python_repl_tool" && StringArg(call.args, "code").Ok?
    requires dumps(Str(ReplReport(repl, call.args["code"].s))).Ok?
    ensures Answer(ToolsByName(repl, codegen), dumps, call)
         == Ok(ToolMessage(dumps(Str(ReplReport(repl, call.args["code"].s))).value, "python_repl_tool", call.id))
  {
  }

  /** `tool_node` does not catch a refused call either: a
      `python_repl_tool` call without a string `code` never reaches the
      REPL, and the step raises the schema refusal naming `code`. */
  lemma ReplCallRefused(repl: Repl, codegen: CodeGenerator, dumps: Dumps, call: ToolCall)
    requires call.name == "python_repl_tool" && StringArg(call.args, "code").Err?
    ensures Answer(ToolsByName(repl, codegen), dumps, call) == Err(ArgsRejected("python_repl_tool", "code"))
  {
  }

  /** A failing REPL does not stop the loop: a lone call of
      `python_repl_tool` whose code raises is answered by a tool message
      holding the failure report, with the call's id. */
  lemma ReplFailureIsAnswered(repl: Repl, codegen: CodeGenerator, dumps: Dumps,
                              log: seq<Message>, content: string, id: string, code: string)
    requires repl(code).Err?
    requires dumps(Str(FailurePrefix + repl(code).error.repr)).Ok?
    requires |log| > 0 && log[|log| - 1] == AiMessage(content, [ToolCall(id, "python_repl_tool", map["code" := Str(code)])])
    ensures var text := dumps(Str(FailurePrefix + repl(code).error.repr)).value;
            ToolNode(repl, codegen, dumps, log) == Ok([ToolMessage(text, "python_repl_tool", id)])
  {
    var call := ToolCall(id, "python_repl_tool", map["code" := Str(code)]);
    var reg := ToolsByName(repl, codegen);
    assert StringArg(call.args, "code") == Ok(code);
    assert ReplReport(repl, code) == FailurePrefix + repl(code).error.repr;
    assert reg[call.name](call.args) == Returned(Str(FailurePrefix + repl(code).error.repr));
    var m := ToolMessage(dumps(Str(FailurePrefix + repl(code).error.repr)).value, "python_repl_tool", id);
    assert Answer(reg, dumps, call) == Ok(m);
    assert AllAnswerable(reg, dumps, [call]);
    var d := Dispatch(reg, dumps, [call]);
    assert |d.value| == 1 && d.value[0] == m;
    assert d.value == [m];
  }

  /** Failure capture happens only inside `python_repl_tool`: a lone
      `generate_python_code` call whose chain raises is not answered, and the
      step raises the chain's exception. */
  lemma CodegenFailureRaises(repl: Repl, codegen: CodeGenerator, dumps: Dumps,
                             log: seq<Message>, content: string, id: string, question: string)
    requires codegen(question).Err?
    requires |log| > 0 && log[|log| - 1] == AiMessage(content, [ToolCall(id, "generate_python_code", map["user_input" := Str(question)])])
    ensures ToolNode(repl, codegen, dumps, log) == Err(ToolRaised("generate_python_code", codegen(question).error))
  {
    var call := ToolCall(id, "generate_python_code", map["user_input" := Str(question)]);
    var reg := ToolsByName(repl, codegen);
    assert StringArg(call.args, "user_input") == Ok(question);
    assert reg[call.name](call.args) == Raised(codegen(question).error);
    assert FirstFailure(reg, dumps, [call], 0);
    DispatchRaisesFirstFailure(reg, dumps, [call], 0);
  }
}

=== FILE: coder_run.dfy ===
/**
 A whole run of the coder graph over the coder's registry: a failing REPL
 call is answered like any other and the model gets the next turn.
 */
module CoderRun {
  import opened Values
  import opened Messages
  import opened Tools
  import opened Agent
  import opened Graph
  import opened Loop
  import opened Coder

  /** The model asks to run `code`, the REPL raises, the failure report goes
      back to the model as a tool message, and the model's next reply needs
      no tool: the run finishes after three steps, having appended exactly
      the request, the report and the final reply. */
  lemma FailingReplRunFinishes(repl: Repl, codegen: CodeGenerator, model: Model, dumps: Dumps,
                               log: seq<Message>, steps: nat, id: string, code: string,
                               first: string, last: string)
    requires steps >= 3
    requires repl(code).Err?
    requires dumps(Str(FailurePrefix + repl(code).error.repr)).Ok?
    requires model(ModelInput(log)) == Reply(first, [ToolCall(id, "python_repl_tool", map["code" := Str(code)])])
    requires var request := AiMessage(first, [ToolCall(id, "python_repl_tool", map["code" := Str(code)])]);
             var report := ToolMessage(dumps(Str(FailurePrefix + repl(code).error.repr)).value, "python_repl_tool", id);
             model(ModelInput(log + [request] + [report])) == Reply(last, [])
    ensures var request := AiMessage(first, [ToolCall(id, "python_repl_tool", map["code" := Str(code)])]);
            var report := ToolMessage(dumps(Str(FailurePrefix + repl(code).error.repr)).value, "python_repl_tool", id);
            Run(ToolsByName(repl, codegen), model, dumps, log, steps)
              == Finished(log + [request, report, AiMessage(last, [])])
  {
    var reg := ToolsByName(repl, codegen);
    var request := AiMessage(first, [ToolCall(id, "python_repl_tool", map["code" := Str(code)])]);
    var report := ToolMessage(dumps(Str(FailurePrefix + repl(code).error.repr)).value, "python_repl_tool", id);
    ReplFailureIsAnswered(repl, codegen, dumps, log + [request], first, id, code);
    assert Agent.ToolNode(reg, dumps, log + [request]) == Ok([report]);
    ToolRequestLoopsBack(reg, model, dumps, log, steps);
    ToolFreeReplyFinishes(reg, model, dumps, log + [request] + [report], steps - 2);
    assert log + [request] + [report] + [AiMessage(last, [])] == log + [request, report, AiMessage(last, [])];
  }

  /** The contrast with a failing REPL: when the code generator raises, the
      run crashes with the chain's exception right after the request is
      stored, and the model never sees a tool message for it. */
  lemma FailingCodegenRunCrashes(repl: Repl, codegen: CodeGenerator, model: Model, dumps: Dumps,
                                 log: seq<Message>, steps: nat, id: string, question: string, first: string)
    requires steps >= 2
    requires codegen(question).Err?
    requires model(ModelInput(log)) == Reply(first, [ToolCall(id, "generate_python_code", map["user_input" := Str(question)])])
    ensures var request := AiMessage(first, [ToolCall(id, "generate_python_code", map["user_input" := Str(question)])]);
            Run(ToolsByName(repl, codegen), model, dumps, log, steps)
              == Crashed(ToolRaised("generate_python_code", codegen(question).error), log + [request])
  {
    var reg := ToolsByName(repl, codegen);
    var request := AiMessage(first, [ToolCall(id, "generate_python_code", map["user_input" := Str(question)])]);
    CodegenFailureRaises(repl, codegen, dumps, log + [request], first, id, question);
    assert Agent.ToolNode(reg, dumps, log + [request]) == Err(ToolRaised("generate_python_code", codegen(question).error));
    ToolFaultCrashes(reg, model, dumps, log, steps);
  }
}

=== FILE: data_analyst.dfy ===
/**
 The data analyst's two tools and its registry.  Both tools run a pipeline of
 text-to-SQL calls and turn an `Exception` raised anywhere in it into an
 ordinary result dict; the shape of that dict tells success from failure.
 */
module DataAnalyst {
  import opened Values
  import opened Messages
  import opened Tools
  import opened Agent

  /** A query result as the tools observe it: `str(df)` and the text of
      `df.dtypes`. */
  datatype Frame = Frame(text: string, dtypes: string)

  /** The text-to-SQL service the tools call; every call may raise. */
  datatype Vanna = Vanna(
    generateSql: (string, bool) -> Result<string, Exc>,         // question, allow_llm_to_see_data
    runSql: string -> Result<Frame, Exc>,
    generateSummary: (string, Frame) -> Result<string, Exc>,     // question, query result
    generatePlotlyCode: (string, string, string) -> Result<string, Exc>, // question, sql, df_metadata
    plotlyFigureDict: (string, Frame) -> Result<Value, Exc>)     // `get_plotly_figure(...).to_dict()`

  /** What a successful question-answering pipeline produced. */
  datatype Answered = Answered(sql: string, frame: Frame, summary: string)

  /** What a successful visualisation pipeline produced. */
  datatype Plotted = Plotted(sql: string, frame: Frame, code: string, figure: Value)

  const AnswerKeys: set<string> := {"sql", "execution_result", "answer"}
  const PlotKeys: set<string> := {"sql", "execution_result", "plotly_code", "plotly_figure"}

  /** Generate SQL (letting the model see data), run it, summarise the
      result; the first call that raises ends the pipeline with its
      exception. */
  function AnswerPipeline(v: Vanna, question: string): (r: Result<Answered, Exc>)
    ensures r.Ok? <==>
              && v.generateSql(question, true).Ok?
              && v.runSql(v.generateSql(question, true).value).Ok?
              && v.generateSummary(question, v.runSql(v.generateSql(question, true).value).value).Ok?
    ensures r.Ok? ==>
              && v.generateSql(question, true) == Ok(r.value.sql)
              && v.runSql(r.value.sql) == Ok(r.value.frame)
              && v.generateSummary(question, r.value.frame) == Ok(r.value.summary)
    ensures v.generateSql(question, true).Err? ==> r == Err(v.generateSql(question, true).error)
    ensures v.generateSql(question, true).Ok? && v.runSql(v.generateSql(question, true).value).Err? ==>
              r == Err(v.runSql(v.generateSql(question, true).value).error)
    ensures v.generateSql(question, true).Ok? && v.runSql(v.generateSql(question, true).value).Ok? ==>
              var frame := v.runSql(v.generateSql(question, true).value).value;
              v.generateSummary(question, frame).Err? ==> r == Err(v.generateSummary(question, frame).error)
  {
    match v.generateSql(question, true)
    case Err(e) => Err(e)
    case Ok(sql) =>
      match v.runSql(sql)
      case Err(e) => Err(e)
      case Ok(frame) =>
        match v.generateSummary(question, frame)
        case Err(e) => Err(e)
        case Ok(summary) => Ok(Answered(sql, frame, summary))
  }

  /** The body of `answer_question_about_data`.  It returns a dict with
      exactly the keys sql, execution_result and answer.  `sql` is None
      exactly when the pipeline raised; then execution_result is None too
      and answer holds the exception text.  Only an exception that is not an
      `Exception` escapes. */
  function AnswerQuestion(v: Vanna, question: string): (r: ToolOutcome)
    ensures !r.Rejected?
    ensures r.Raised? <==> AnswerPipeline(v, question).Err? && !AnswerPipeline(v, question).error.isException
    ensures r.Raised? ==> r.exc == AnswerPipeline(v, question).error
    ensures r.Returned? ==>
              && r.value.Dict? && r.value.fields.Keys == AnswerKeys
              && (r.value.fields["sql"] == Null <==> AnswerPipeline(v, question).Err?)
    ensures r.Returned? && AnswerPipeline(v, question).Err? ==>
              && r.value.fields["execution_result"] == Null
              && r.value.fields["answer"] == Str(AnswerPipeline(v, question).error.text)
    ensures AnswerPipeline(v, question).Ok? ==>
              var a := AnswerPipeline(v, question).value;
              && r.Returned?
              && r.value.fields["sql"] == Str(a.sql)
              && r.value.fields["execution_result"] == Str(a.frame.text)
              && r.value.fields["answer"] == Str(a.summary)
  {
    match AnswerPipeline(v, question)
    case Ok(a) =>
      Returned(Dict(map["sql" := Str(a.sql), "execution_result" := Str(a.frame.text), "answer" := Str(a.summary)]))
    case Err(e) =>
      if e.isException then
        Returned(Dict(map["sql" := Null, "execution_result" := Null, "answer" := Str(e.text)]))
      else Raised(e)
  }

  /** The `df_metadata` text handed to plotly code generation. */
  function DfMetadata(frame: Frame): string {
    "Running df.dtypes gives:\n " + frame.dtypes
  }

  /** Generate SQL, run it, generate plotly code from the question, the SQL
      and the result's dtypes, then build the figure and turn it into a
      dict; the first call that raises ends the pipeline with its
      exception. */
  function PlotPipeline(v: Vanna, question: string): (r: Result<Plotted, Exc>)
    ensures r.Ok? <==>
              && v.generateSql(question, false).Ok?
              && v.runSql(v.generateSql(question, false).value).Ok?
              && v.generatePlotlyCode(question, v.generateSql(question, false).value,
                                      DfMetadata(v.runSql(v.generateSql(question, false).value).value)).Ok?
              && v.plotlyFigureDict(v.generatePlotlyCode(question, v.generateSql(question, false).value,
                                                         DfMetadata(v.runSql(v.generateSql(question, false).value).value)).value,
                                    v.runSql(v.generateSql(question, false).value).value).Ok?
    ensures r.Ok? ==>
              && v.generateSql(question, false) == Ok(r.value.sql)
              && v.runSql(r.value.sql) == Ok(r.value.frame)
              && v.generatePlotlyCode(question, r.value.sql, DfMetadata(r.value.frame)) == Ok(r.value.code)
              && v.plotlyFigureDict(r.value.code, r.value.frame) == Ok(r.value.figure)
    ensures v.generateSql(question, false).Err? ==> r == Err(v.generateSql(question, false).error)
    ensures v.generateSql(question, false).Ok? && v.runSql(v.generateSql(question, false).value).Err? ==>
              r == Err(v.runSql(v.generateSql(question, false).value).error)
    ensures v.generateSql(question, false).Ok? && v.runSql(v.generateSql(question, false).value).Ok? ==>
              var sql := v.generateSql(question, false).value;
              var frame := v.runSql(sql).value;
              && (v.generatePlotlyCode(question, sql, DfMetadata(frame)).Err? ==>
                    r == Err(v.generatePlotlyCode(question, sql, DfMetadata(frame)).error))
              && (v.generatePlotlyCode(question, sql, DfMetadata(frame)).Ok? ==>
                    var code := v.generatePlotlyCode(question, sql, DfMetadata(frame)).value;
                    v.plotlyFigureDict(code, frame).Err? ==> r == Err(v.plotlyFigureDict(code, frame).error))
  {
    match v.generateSql(question, false)
    case Err(e) => Err(e)
    case Ok(sql) =>
      match v.runSql(sql)
      case Err(e) => Err(e)
      case Ok(frame) =>
        match v.generatePlotlyCode(question, sql, DfMetadata(frame))
        case Err(e) => Err(e)
        case Ok(code) =>
          match v.plotlyFigureDict(code, frame)
          case Err(e) => Err(e)
          case Ok(figure) => Ok(Plotted(sql, frame, code, figure))
  }

  /** The body of `visualize_data`.  It returns a dict with exactly the
      keys sql, execution_result, plotly_code and plotly_figure.  `sql` is
      None exactly when the pipeline raised; then plotly_code and
      plotly_figure are None and execution_result holds the exception text.
      Only an exception that is not an `Exception` escapes. */
  function VisualizeData(v: Vanna, question: string): (r: ToolOutcome)
    ensures !r.Rejected?
    ensures r.Raised? <==> PlotPipeline(v, question).Err? && !PlotPipeline(v, question).error.isException
    ensures r.Raised? ==> r.exc == PlotPipeline(v, question).error
    ensures r.Returned? ==>
              && r.value.Dict? && r.value.fields.Keys == PlotKeys
              && (r.value.fields["sql"] == Null <==> PlotPipeline(v, question).Err?)
    ensures r.Returned? && PlotPipeline(v, question).Err? ==>
              && r.value.fields["execution_result"] == Str(PlotPipeline(v, question).error.text)
              && r.value.fields["plotly_code"] == Null
              && r.value.fields["plotly_figure"] == Null
    ensures PlotPipeline(v, question).Ok? ==>
              var p := PlotPipeline(v, question).value;
              && r.Returned?
              && r.value.fields["sql"] == Str(p.sql)
              && r.value.fields["execution_result"] == Str(p.frame.text)
              && r.value.fields["plotly_code"] == Str(p.code)
              && r.value.fields["plotly_figure"] == p.figure
  {
    match PlotPipeline(v, question)
    case Ok(p) =>
      Returned(Dict(map["sql" := Str(p.sql), "execution_result" := Str(p.frame.text),
                        "plotly_code" := Str(p.code), "plotly_figure" := p.figure]))
    case Err(e) =>
      if e.isException then
        Returned(Dict(map["sql" := Null, "execution_result" := Str(e.text),
                          "plotly_code" := Null, "plotly_figure" := Null]))
      else Raised(e)
  }

  /** A tool taking one string parameter `user_input`. */
  function QuestionTool(body: string -> ToolOutcome): (t: Tool)
    ensures forall args: Args :: StringArg(args, "user_input").Ok? ==> t(args) == body(args["user_input"].s)
    ensures forall args: Args :: StringArg(args, "user_input").Err? ==> t(args) == Rejected("user_input")
  {
    (args: Args) =>
      match StringArg(args, "user_input")
      case Err(field) => Rejected(field)
      case Ok(q) => body(q)
  }

  /** The tool list of `get_tools_by_name`. */
  function AnalystTools(v: Vanna): seq<NamedTool> {
    [NamedTool("answer_question_about_data", QuestionTool(q => AnswerQuestion(v, q))),
     NamedTool("visualize_data", QuestionTool(q => VisualizeData(v, q)))]
  }

  /** The registry `get_tools_by_name` returns: exactly the two tool names,
      each bound to its own tool. */
  function ToolsByName(v: Vanna): (reg: Registry)
    ensures reg.Keys == {"answer_question_about_data", "visualize_data"}
    ensures forall args: Args :: StringArg(args, "user_input").Ok? ==>
              && reg["answer_question_about_data"](args) == AnswerQuestion(v, args["user_input"].s)
              && reg["visualize_data"](args) == VisualizeData(v, args["user_input"].s)
    ensures forall args: Args :: StringArg(args, "user_input").Err? ==>
              && reg["answer_question_about_data"](args) == Rejected("user_input")
              && reg["visualize_data"](args) == Rejected("user_input")
  {
    var tools := AnalystTools(v);
    assert Names(tools) == {"answer_question_about_data", "visualize_data"} by {
      assert tools[0].name == "answer_question_about_data" && tools[1].name == "visualize_data";
    }
    ByNameDistinct(tools);
    ByName(tools)
  }

  /** Neither analyst tool lets an `Exception` out: unless the called tool's
      own pipeline raised something outside `Exception`, a call with a string
      question returns a result dict. */
  lemma AnalystToolsCatchExceptions(v: Vanna, args: Args, name: string)
    requires name in ToolsByName(v) && StringArg(args, "user_input").Ok?
    requires var q := args["user_input"].s;
             && (name == "answer_question_about_data" && AnswerPipeline(v, q).Err? ==> AnswerPipeline(v, q).error.isException)
             && (name == "visualize_data" && PlotPipeline(v, q).Err? ==> PlotPipeline(v, q).error.isException)
    ensures ToolsByName(v)[name](args).Returned?
    ensures ToolsByName(v)[name](args).value.Dict?
  {
  }

  /** A result dict that carries SQL comes from a run of the whole pipeline
      on that SQL: the service generated it for the question with data
      visible, running it gave the stringified execution result, and the
      summary of that result is the answer. */
  lemma AnswerTracesVanna(v: Vanna, question: string, sql: string)
    requires AnswerQuestion(v, question).Returned?
    requires AnswerQuestion(v, question).value.fields["sql"] == Str(sql)
    ensures v.generateSql(question, true) == Ok(sql)
    ensures v.runSql(sql).Ok?
    ensures AnswerQuestion(v, question).value.fields["execution_result"] == Str(v.runSql(sql).value.text)
    ensures v.generateSummary(question, v.runSql(sql).value).Ok?
    ensures AnswerQuestion(v, question).value.fields["answer"] == Str(v.generateSummary(question, v.runSql(sql).value).value)
  {
  }

  /** A visualisation dict that carries SQL comes from a run of the whole
      pipeline on that SQL: the service generated it for the question
      without seeing data, running it gave the stringified execution result,
      the plotly code was generated from the question, the SQL and the
      result's dtypes, and the figure is built from that code and result. */
  lemma PlotTracesVanna(v: Vanna, question: string, sql: string)
    requires VisualizeData(v, question).Returned?
    requires VisualizeData(v, question).value.fields["sql"] == Str(sql)
    ensures v.generateSql(question, false) == Ok(sql)
    ensures v.runSql(sql).Ok?
    ensures VisualizeData(v, question).value.fields["execution_result"] == Str(v.runSql(sql).value.text)
    ensures v.generatePlotlyCode(question, sql, DfMetadata(v.runSql(sql).value)).Ok?
    ensures VisualizeData(v, question).value.fields["plotly_code"]
         == Str(v.generatePlotlyCode(question, sql, DfMetadata(v.runSql(sql).value)).value)
    ensures v.plotlyFigureDict(v.generatePlotlyCode(question, sql, DfMetadata(v.runSql(sql).value)).value,
                               v.runSql(sql).value).Ok?
    ensures VisualizeData(v, question).value.fields["plotly_figure"]
         == v.plotlyFigureDict(v.generatePlotlyCode(question, sql, DfMetadata(v.runSql(sql).value)).value,
                               v.runSql(sql).value).value
  {
  }

  /** A call to either analyst tool without a string `user_input` never
      reaches the tool body: the argument schema refuses it, and the
      dispatch step raises naming that parameter. */
  lemma AnalystCallRefused(v: Vanna, dumps: Dumps, call: ToolCall)
    requires call.name in ToolsByName(v) && StringArg(call.args, "user_input").Err?
    ensures Answer(ToolsByName(v), dumps, call) == Err(ArgsRejected(call.name, "user_input"))
  {
  }
}

=== FILE: graph.dfy ===
/**
 The compiled two-node graph: an "agent" node running the model step, a
 "tools" node running the dispatch step, a conditional edge out of "agent"
 chosen by the routing predicate, and a plain edge out of "tools".
 */
module Graph {
  import opened Messages
  import opened Tools
  import opened Agent

  /** The nodes of the graph; `EndNode` is the graph's `END`. */
  datatype Node = AgentNode | ToolsNode | EndNode

  /** How the nodes are joined: the entry point, the path map of the
      conditional edge out of "agent", and the target of the edge out of
      "tools". */
  datatype Wiring = Wiring(entry: Node, branches: map<Route, Node>, afterTools: Node)

  /** The wiring `create_coder_agent` builds: enter at "agent"; "continue"
      leads to "tools", "end" to `END`; "tools" always leads back to
      "agent". */
  const CoderWiring: Wiring := Wiring(AgentNode, map[Continue := ToolsNode, End := EndNode], AgentNode)

  /** How a graph run ends: at `END`, with an exception escaping a node, or
      with the step budget spent. */
  datatype RunResult =
    | Finished(log: seq<Message>)
    | Crashed(fault: Fault, log: seq<Message>)
    | OutOfSteps(log: seq<Message>)

  /** The outcome of executing one node: an exception escaped it, or the
      graph moves on to `node` with the log after the node's update. */
  datatype StepResult =
    | Stop(fault: Fault, log: seq<Message>)
    | Next(node: Node, log: seq<Message>)

  /** Execute `node` and follow its outgoing edge.  The "agent" node appends
      the model's reply and the routing predicate picks the branch; the
      "tools" node appends the answers and moves to the edge's target.  A
      node that raises leaves the log as it was before the node. */
  function Step(w: Wiring, reg: Registry, model: Model, dumps: Dumps,
                node: Node, log: seq<Message>): (r: StepResult)
    requires node != EndNode
    ensures |log| <= |r.log| && r.log[..|log|] == log
    ensures node == AgentNode && r.Next? ==>
              && |r.log| == |log| + 1
              && r.log[|log|].AiMessage?
              && (IsToolFreeReply(r.log[|log|]) ==> End in w.branches && r.node == w.branches[End])
              && (IsToolRequest(r.log[|log|]) ==> Continue in w.branches && r.node == w.branches[Continue])
    ensures node == AgentNode && r.Stop? ==>
              && r.log == log
              && (r.fault.ModelRaised? || (r.fault.NoBranch? && r.fault.route !in w.branches))
    ensures node == ToolsNode && r.Stop? ==>
              && r.log == log
              && (|log| > 0 && log[|log| - 1].AiMessage? ==> IsToolFault(r.fault))
    ensures node == AgentNode && model(ModelInput(log)).ModelFailed? ==>
              r == Stop(ModelRaised(model(ModelInput(log)).exc), log)
    ensures node == AgentNode && r.Next? ==>
              r.log == log + [AiMessage(model(ModelInput(log)).content, model(ModelInput(log)).toolCalls)]
    ensures node == ToolsNode && r.Next? ==>
              ToolNode(reg, dumps, log).Ok? && r.log == log + ToolNode(reg, dumps, log).value
    ensures node == ToolsNode && r.Stop? ==>
              ToolNode(reg, dumps, log).Err? && r.fault == ToolNode(reg, dumps, log).error
    ensures node == ToolsNode && r.Next? ==>
              && r.node == w.afterTools
              && |log| > 0 && log[|log| - 1].AiMessage?
              && Answers(log[|log| - 1].toolCalls, r.log[|log|..])
  {
    if node == AgentNode then
      match CallModel(model, log)
      case Err(f) => Stop(f, log)
      case Ok(update) =>
        var log' := AddMessages(log, update);
        match ShouldContinue(log')
        case Err(f) => Stop(f, log)
        case Ok(route) =>
          if route in w.branches then Next(w.branches[route], log')
          else Stop(NoBranch(route), log)
    else
      match ToolNode(reg, dumps, log)
      case Err(f) => Stop(f, log)
      case Ok(update) => Next(w.afterTools, AddMessages(log, update))
  }

  /** Run the graph from `node` on `log`.  Every node execution spends one
      unit of `steps`; reaching `END` spends none. */
  function Exec(w: Wiring, reg: Registry, model: Model, dumps: Dumps,
                node: Node, log: seq<Message>, steps: nat): (r: RunResult)
    ensures |log| <= |r.log| && r.log[..|log|] == log
    decreases steps
  {
    if node == EndNode then Finished(log)
    else if steps == 0 then OutOfSteps(log)
    else
      match Step(w, reg, model, dumps, node, log)
      case Stop(f, log') => Crashed(f, log')
      case Next(node', log') => Exec(w, reg, model, dumps, node', log', steps - 1)
  }

  /** A run of the coder graph, entered at its entry point. */
  function Run(reg: Registry, model: Model, dumps: Dumps, log: seq<Message>, steps: nat): (r: RunResult)
    ensures |log| <= |r.log| && r.log[..|log|] == log
  {
    Exec(CoderWiring, reg, model, dumps, CoderWiring.entry, log, steps)
  }
}

=== FILE: loop.dfy ===
/**
 What the coder graph guarantees about a whole run: what it appends is a
 sequence of complete tool rounds, it finishes only on a reply that requests
 no tool, every tool step is followed by a model step, and the system text is
 never stored.
 */
module Loop {
  import opened Values
  import opened Messages
  import opened Tools
  import opened Agent
  import opened Transcript
  import opened Graph

  /** The shape of what a run appended to `log0`, given where it ended. */
  predicate ShapedRun(r: RunResult, log0: seq<Message>) {
    && |log0| <= |r.log| && r.log[..|log0|] == log0
    && var seg := r.log[|log0|..];
    && (r.Finished? ==> Completed(seg))
    && (r.OutOfSteps? ==> Rounds(seg) || Pending(seg))
    && (r.Crashed? ==> (r.fault.ModelRaised? && Rounds(seg)) || (IsToolFault(r.fault) && Pending(seg)))
  }

  /** The invariant of the coder graph at each node: on entering "agent"
      the appended messages are complete rounds, on entering "tools" a reply
      is pending, and on reaching `END` the last reply requested no tool. */
  predicate AtNode(node: Node, seg: seq<Message>) {
    match node
    case AgentNode => Rounds(seg)
    case ToolsNode => Pending(seg)
    case EndNode => Completed(seg)
  }

  /** One node of the coder graph keeps the invariant; if it raises, the
      fault is the model's from "agent" or a tool call's from "tools". */
  lemma StepKeepsShape(reg: Registry, model: Model, dumps: Dumps,
                       node: Node, log0: seq<Message>, mid: seq<Message>)
    requires node != EndNode && AtNode(node, mid)
    ensures StepShaped(Step(CoderWiring, reg, model, dumps, node, log0 + mid), log0)
  {
    if node == AgentNode {
      AgentStepKeepsShape(reg, model, dumps, log0, mid);
    } else {
      ToolsStepKeepsShape(reg, model, dumps, log0, mid);
    }
  }

  /** What a node step of the coder graph leaves behind, relative to `log0`. */
  predicate StepShaped(s: StepResult, log0: seq<Message>) {
    && |log0| <= |s.log| && s.log[..|log0|] == log0
    && (s.Next? ==> AtNode(s.node, s.log[|log0|..]))
    && (s.Stop? ==>
          || (s.fault.ModelRaised? && Rounds(s.log[|log0|..]))
          || (IsToolFault(s.fault) && Pending(s.log[|log0|..])))
  }

  /** The "agent" node appends one reply to complete rounds. */
  lemma AgentStepKeepsShape(reg: Registry, model: Model, dumps: Dumps, log0: seq<Message>, mid: seq<Message>)
    requires Rounds(mid)
    ensures StepShaped(Step(CoderWiring, reg, model, dumps, AgentNode, log0 + mid), log0)
  {
    var log := log0 + mid;
    var s := Step(CoderWiring, reg, model, dumps, AgentNode, log);
    if s.Next? {
      var reply := s.log[|log|];
      assert s.log == log + [reply];
      ExtendRounds(log0, mid, reply);
    } else {
      assert log[|log0|..] == mid;
    }
  }

  /** Complete rounds followed by one reply: pending if it requests tools,
      completed if not. */
  lemma ExtendRounds(log0: seq<Message>, mid: seq<Message>, reply: Message)
    requires Rounds(mid) && reply.AiMessage?
    ensures var out := log0 + mid + [reply];
            && out[..|log0|] == log0
            && (IsToolRequest(reply) ==> Pending(out[|log0|..]))
            && (IsToolFreeReply(reply) ==> Completed(out[|log0|..]))
  {
    var out := log0 + mid + [reply];
    assert out[|log0|..] == mid + [reply];
    assert (mid + [reply])[..|mid|] == mid;
  }

  /** The "tools" node completes the pending round. */
  lemma ToolsStepKeepsShape(reg: Registry, model: Model, dumps: Dumps, log0: seq<Message>, mid: seq<Message>)
    requires Pending(mid)
    ensures StepShaped(Step(CoderWiring, reg, model, dumps, ToolsNode, log0 + mid), log0)
  {
    var log := log0 + mid;
    var s := Step(CoderWiring, reg, model, dumps, ToolsNode, log);
    assert log[|log| - 1] == mid[|mid| - 1];
    if s.Next? {
      var answers := s.log[|log|..];
      assert s.log == log + answers;
      CompleteRound(log0, mid, answers);
    } else {
      assert log[|log0|..] == mid;
    }
  }

  /** A pending reply followed by its answers makes complete rounds. */
  lemma CompleteRound(log0: seq<Message>, mid: seq<Message>, answers: seq<Message>)
    requires Pending(mid) && Answers(mid[|mid| - 1].toolCalls, answers)
    ensures var out := log0 + mid + answers;
            out[..|log0|] == log0 && Rounds(out[|log0|..])
  {
    var pre := mid[..|mid| - 1];
    var reply := mid[|mid| - 1];
    assert mid == pre + [reply];
    RoundsAppend(pre, reply, answers);
    var out := log0 + mid + answers;
    assert out[|log0|..] == pre + [reply] + answers;
  }

  /** The invariant holds for the whole run from any node where it holds. */
  lemma {:induction false} ExecShape(reg: Registry, model: Model, dumps: Dumps,
                                     node: Node, log0: seq<Message>, log: seq<Message>, steps: nat)
    requires |log0| <= |log| && log[..|log0|] == log0 && AtNode(node, log[|log0|..])
    ensures ShapedRun(Exec(CoderWiring, reg, model, dumps, node, log, steps), log0)
    decreases steps, 1
  {
    if node != EndNode && steps > 0 {
      var mid := log[|log0|..];
      assert log == log0 + mid;
      if node == AgentNode {
        AgentStepKeepsShape(reg, model, dumps, log0, mid);
        ExecAfterAgent(reg, model, dumps, log0, log, steps);
      } else {
        ToolsStepKeepsShape(reg, model, dumps, log0, mid);
        ExecAfterTools(reg, model, dumps, log0, log, steps);
      }
    }
  }

  /** The run after a shaped "agent" step keeps the invariant. */
  lemma {:induction false} ExecAfterAgent(reg: Registry, model: Model, dumps: Dumps,
                                          log0: seq<Message>, log: seq<Message>, steps: nat)
    requires steps > 0
    requires StepShaped(Step(CoderWiring, reg, model, dumps, AgentNode, log), log0)
    ensures ShapedRun(Exec(CoderWiring, reg, model, dumps, AgentNode, log, steps), log0)
    decreases steps, 0
  {
    var s := Step(CoderWiring, reg, model, dumps, AgentNode, log);
    if s.Next? {
      ExecShape(reg, model, dumps, s.node, log0, s.log, steps - 1);
    }
  }

  /** The run after a shaped "tools" step keeps the invariant. */
  lemma {:induction false} ExecAfterTools(reg: Registry, model: Model, dumps: Dumps,
                                          log0: seq<Message>, log: seq<Message>, steps: nat)
    requires steps > 0
    requires StepShaped(Step(CoderWiring, reg, model, dumps, ToolsNode, log), log0)
    ensures ShapedRun(Exec(CoderWiring, reg, model, dumps, ToolsNode, log, steps), log0)
    decreases steps, 0
  {
    var s := Step(CoderWiring, reg, model, dumps, ToolsNode, log);
    if s.Next? {
      ExecShape(reg, model, dumps, s.node, log0, s.log, steps - 1);
    }
  }

  /** A run appends complete rounds and, when it finishes, a final reply
      that requests no tool; if it stops early the log holds complete rounds
      or one reply whose requests were not answered. */
  lemma RunShape(reg: Registry, model: Model, dumps: Dumps, log: seq<Message>, steps: nat)
    ensures ShapedRun(Run(reg, model, dumps, log, steps), log)
  {
    assert log[|log|..] == [];
    ExecShape(reg, model, dumps, AgentNode, log, log, steps);
  }

  /** A run reaches `END` only after a model reply with no tool call, which
      is then the last message of the log: the routing predicate reads
      "end" on the final log. */
  lemma RunEndsOnlyOnToolFreeReply(reg: Registry, model: Model, dumps: Dumps, log: seq<Message>, steps: nat)
    requires Run(reg, model, dumps, log, steps).Finished?
    ensures var out := Run(reg, model, dumps, log, steps).log;
            && |out| > |log|
            && IsToolFreeReply(out[|out| - 1])
            && ShouldContinue(out) == Ok(End)
  {
    RunShape(reg, model, dumps, log, steps);
    var out := Run(reg, model, dumps, log, steps).log;
    assert out[|out| - 1] == out[|log|..][|out| - |log| - 1];
  }

  /** A finished run has answered every tool call it made: the messages it
      appended hold exactly as many tool messages as tool calls. */
  lemma RunAnswersEveryCall(reg: Registry, model: Model, dumps: Dumps, log: seq<Message>, steps: nat)
    requires Run(reg, model, dumps, log, steps).Finished?
    ensures var out := Run(reg, model, dumps, log, steps).log;
            ToolMessageCount(out[|log|..]) == ToolCallCount(out[|log|..])
  {
    RunShape(reg, model, dumps, log, steps);
    var seg := Run(reg, model, dumps, log, steps).log[|log|..];
    var pre := seg[..|seg| - 1];
    RoundsBalance(pre);
    assert seg == pre + [seg[|seg| - 1]];
    ToolCallCountAppend(pre, [seg[|seg| - 1]]);
    ToolMessageCountAppend(pre, [seg[|seg| - 1]]);
    assert [seg[|seg| - 1]][..0] == [];
  }

  /** Every tool message a run appends answers, by id and name, the call at
      its own position in the most recent model reply before it. */
  lemma RunAnswersLatestReply(reg: Registry, model: Model, dumps: Dumps, log: seq<Message>, steps: nat)
    ensures var seg := Run(reg, model, dumps, log, steps).log[|log|..];
            forall j :: 0 <= j < |seg| && seg[j].ToolMessage? ==> exists i :: AnsweredAt(seg, i, j)
  {
    RunShape(reg, model, dumps, log, steps);
    var seg := Run(reg, model, dumps, log, steps).log[|log|..];
    if Rounds(seg) {
      RoundsAnswerLatestReply(seg);
    } else {
      var pre := seg[..|seg| - 1];
      RoundsAnswerLatestReply(pre);
      forall j | 0 <= j < |seg| && seg[j].ToolMessage? ensures exists i :: AnsweredAt(seg, i, j) {
        assert seg[j] == pre[j];
        var i :| AnsweredAt(pre, i, j);
        assert AnsweredAt(seg, i, j);
      }
    }
  }

  /** The system message goes to the model on every step but never into the
      log: a run stores no system message beyond those already there. */
  lemma RunNeverStoresSystemPrompt(reg: Registry, model: Model, dumps: Dumps, log: seq<Message>, steps: nat)
    ensures SystemMessageCount(Run(reg, model, dumps, log, steps).log) == SystemMessageCount(log)
  {
    RunShape(reg, model, dumps, log, steps);
    var out := Run(reg, model, dumps, log, steps).log;
    var seg := out[|log|..];
    if Rounds(seg) {
      RoundsHoldRepliesAndAnswers(seg);
    } else {
      RoundsHoldRepliesAndAnswers(seg[..|seg| - 1]);
      assert forall j :: 0 <= j < |seg| - 1 ==> seg[j] == seg[..|seg| - 1][j];
    }
    NoSystemMessages(seg);
    assert out == log + seg;
    SystemMessageCountAppend(log, seg);
  }

  /** A segment of replies and tool messages holds no system message. */
  lemma {:induction false} NoSystemMessages(seg: seq<Message>)
    requires forall j :: 0 <= j < |seg| ==> seg[j].AiMessage? || seg[j].ToolMessage?
    ensures SystemMessageCount(seg) == 0
    decreases |seg|
  {
    if |seg| > 0 {
      NoSystemMessages(seg[..|seg| - 1]);
    }
  }

  /** A reply that requests no tool ends the run right after the model step,
      with that reply as the one message appended. */
  lemma ToolFreeReplyFinishes(reg: Registry, model: Model, dumps: Dumps, log: seq<Message>, steps: nat)
    requires steps >= 1
    requires model(ModelInput(log)).Reply? && |model(ModelInput(log)).toolCalls| == 0
    ensures Run(reg, model, dumps, log, steps) == Finished(log + [AiMessage(model(ModelInput(log)).content, [])])
  {
    var log' := log + [AiMessage(model(ModelInput(log)).content, [])];
    assert CallModel(model, log) == Ok([AiMessage(model(ModelInput(log)).content, [])]);
    assert ShouldContinue(log') == Ok(End);
    assert Step(CoderWiring, reg, model, dumps, AgentNode, log) == Next(EndNode, log');
    assert Run(reg, model, dumps, log, steps) == Exec(CoderWiring, reg, model, dumps, AgentNode, log, steps);
    assert Exec(CoderWiring, reg, model, dumps, AgentNode, log, steps)
        == Exec(CoderWiring, reg, model, dumps, EndNode, log', steps - 1);
  }

  /** A reply that requests tools is stored, its tools are run, their
      answers are stored, and the model is asked again: the run continues
      as a run from the longer log with two steps fewer. */
  lemma ToolRequestLoopsBack(reg: Registry, model: Model, dumps: Dumps, log: seq<Message>, steps: nat)
    requires steps >= 2
    requires model(ModelInput(log)).Reply? && |model(ModelInput(log)).toolCalls| > 0
    requires var reply := AiMessage(model(ModelInput(log)).content, model(ModelInput(log)).toolCalls);
             ToolNode(reg, dumps, log + [reply]).Ok?
    ensures var reply := AiMessage(model(ModelInput(log)).content, model(ModelInput(log)).toolCalls);
            var answers := ToolNode(reg, dumps, log + [reply]).value;
            && Answers(reply.toolCalls, answers)
            && Run(reg, model, dumps, log, steps) == Run(reg, model, dumps, log + [reply] + answers, steps - 2)
  {
    var reply := AiMessage(model(ModelInput(log)).content, model(ModelInput(log)).toolCalls);
    var answers := ToolNode(reg, dumps, log + [reply]).value;
    assert CallModel(model, log) == Ok([reply]);
    assert ShouldContinue(log + [reply]) == Ok(Continue);
    assert Step(CoderWiring, reg, model, dumps, AgentNode, log) == Next(ToolsNode, log + [reply]);
    assert Step(CoderWiring, reg, model, dumps, ToolsNode, log + [reply]) == Next(AgentNode, log + [reply] + answers);
    assert Run(reg, model, dumps, log, steps) == Exec(CoderWiring, reg, model, dumps, AgentNode, log, steps);
    assert Exec(CoderWiring, reg, model, dumps, AgentNode, log, steps)
        == Exec(CoderWiring, reg, model, dumps, ToolsNode, log + [reply], steps - 1);
    assert Exec(CoderWiring, reg, model, dumps, ToolsNode, log + [reply], steps - 1)
        == Exec(CoderWiring, reg, model, dumps, AgentNode, log + [reply] + answers, steps - 2);
  }

  /** After a reply requesting tools, a dispatch step that raises ends the
      run: the reply stays in the log, none of the answers do, and the
      model gets no further turn. */
  lemma ToolFaultCrashes(reg: Registry, model: Model, dumps: Dumps, log: seq<Message>, steps: nat)
    requires steps >= 2
    requires model(ModelInput(log)).Reply? && |model(ModelInput(log)).toolCalls| > 0
    requires var reply := AiMessage(model(ModelInput(log)).content, model(ModelInput(log)).toolCalls);
             ToolNode(reg, dumps, log + [reply]).Err?
    ensures var reply := AiMessage(model(ModelInput(log)).content, model(ModelInput(log)).toolCalls);
            && IsToolFault(ToolNode(reg, dumps, log + [reply]).error)
            && Run(reg, model, dumps, log, steps) == Crashed(ToolNode(reg, dumps, log + [reply]).error, log + [reply])
  {
    var reply := AiMessage(model(ModelInput(log)).content, model(ModelInput(log)).toolCalls);
    assert CallModel(model, log) == Ok([reply]);
    assert ShouldContinue(log + [reply]) == Ok(Continue);
    assert Step(CoderWiring, reg, model, dumps, AgentNode, log) == Next(ToolsNode, log + [reply]);
    assert Step(CoderWiring, reg, model, dumps, ToolsNode, log + [reply])
        == Stop(ToolNode(reg, dumps, log + [reply]).error, log + [reply]);
    assert Run(reg, model, dumps, log, steps) == Exec(CoderWiring, reg, model, dumps, AgentNode, log, steps);
    assert Exec(CoderWiring, reg, model, dumps, AgentNode, log, steps)
        == Exec(CoderWiring, reg, model, dumps, ToolsNode, log + [reply], steps - 1);
  }

  /** A raising model ends the run at once: its exception escapes the
      "agent" node and the log is left as it was. */
  lemma ModelFaultCrashes(reg: Registry, model: Model, dumps: Dumps, log: seq<Message>, steps: nat)
    requires steps >= 1 && model(ModelInput(log)).ModelFailed?
    ensures Run(reg, model, dumps, log, steps) == Crashed(ModelRaised(model(ModelInput(log)).exc), log)
  {
    assert Step(CoderWiring, reg, model, dumps, AgentNode, log) == Stop(ModelRaised(model(ModelInput(log)).exc), log);
    assert Run(reg, model, dumps, log, steps) == Exec(CoderWiring, reg, model, dumps, AgentNode, log, steps);
  }

  /** Running out of steps is the only outcome more steps can change: a run
      that finishes or crashes within a budget ends the same way with any
      larger one. */
  lemma {:induction false} MoreStepsSameEnd(w: Wiring, reg: Registry, model: Model, dumps: Dumps,
                                            node: Node, log: seq<Message>, steps: nat, extra: nat)
    requires !Exec(w, reg, model, dumps, node, log, steps).OutOfSteps?
    ensures Exec(w, reg, model, dumps, node, log, steps + extra) == Exec(w, reg, model, dumps, node, log, steps)
    decreases steps, 1
  {
    if node == AgentNode {
      MoreStepsAfterAgent(w, reg, model, dumps, log, steps, extra);
    } else if node == ToolsNode {
      MoreStepsAfterTools(w, reg, model, dumps, log, steps, extra);
    }
  }

  /** `MoreStepsSameEnd` from the "agent" node. */
  lemma {:induction false} MoreStepsAfterAgent(w: Wiring, reg: Registry, model: Model, dumps: Dumps,
                                               log: seq<Message>, steps: nat, extra: nat)
    requires !Exec(w, reg, model, dumps, AgentNode, log, steps).OutOfSteps?
    ensures Exec(w, reg, model, dumps, AgentNode, log, steps + extra) == Exec(w, reg, model, dumps, AgentNode, log, steps)
    decreases steps, 0
  {
    var s := Step(w, reg, model, dumps, AgentNode, log);
    if s.Next? {
      MoreStepsSameEnd(w, reg, model, dumps, s.node, s.log, steps - 1, extra);
    }
  }

  /** `MoreStepsSameEnd` from the "tools" node. */
  lemma {:induction false} MoreStepsAfterTools(w: Wiring, reg: Registry, model: Model, dumps: Dumps,
                                               log: seq<Message>, steps: nat, extra: nat)
    requires !Exec(w, reg, model, dumps, ToolsNode, log, steps).OutOfSteps?
    ensures Exec(w, reg, model, dumps, ToolsNode, log, steps + extra) == Exec(w, reg, model, dumps, ToolsNode, log, steps)
    decreases steps, 0
  {
    var s := Step(w, reg, model, dumps, ToolsNode, log);
    if s.Next? {
      MoreStepsSameEnd(w, reg, model, dumps, s.node, s.log, steps - 1, extra);
    }
  }
}

=== FILE: messages.dfy ===
/**
 The message log an agent's graph state carries, and the correspondence
 between a model reply's tool calls and the tool messages that answer them.
 */
module Messages {
  import opened Values

  /** The arguments of a tool call: a dict from parameter name to value. */
  type Args = map<string, Value>

  /** One tool invocation requested by the model: `tool_call["id"]`,
      `tool_call["name"]` and `tool_call["args"]`. */
  datatype ToolCall = ToolCall(id: string, name: string, args: Args)

  /** The message kinds of the log.  Only a model reply (`AIMessage`)
      carries a `tool_calls` list; a `ToolMessage` carries the name and the
      id of the call it answers. */
  datatype Message =
    | SystemMessage(content: string)
    | HumanMessage(content: string)
    | AiMessage(content: string, toolCalls: seq<ToolCall>)
    | ToolMessage(content: string, name: string, toolCallId: string)

  /** `m` is a model reply that requests no tool. */
  predicate IsToolFreeReply(m: Message) {
    m.AiMessage? && |m.toolCalls| == 0
  }

  /** `m` is a model reply that requests at least one tool. */
  predicate IsToolRequest(m: Message) {
    m.AiMessage? && |m.toolCalls| > 0
  }

  /** `answers` are exactly the tool messages that answer `calls`: one per
      call, in the same order, each carrying its call's id and name. */
  predicate Answers(calls: seq<ToolCall>, answers: seq<Message>) {
    && |answers| == |calls|
    && forall i :: 0 <= i < |answers| ==>
         && answers[i].ToolMessage?
         && answers[i].toolCallId == calls[i].id
         && answers[i].name == calls[i].name
  }

  /** The number of tool calls requested by the model replies in `log`. */
  function ToolCallCount(log: seq<Message>): nat {
    if |log| == 0 then 0
    else ToolCallCount(log[..|log| - 1])
         + (var m := log[|log| - 1]; if m.AiMessage? then |m.toolCalls| else 0)
  }

  /** The number of tool messages in `log`. */
  function ToolMessageCount(log: seq<Message>): nat {
    if |log| == 0 then 0
    else ToolMessageCount(log[..|log| - 1]) + (if log[|log| - 1].ToolMessage? then 1 else 0)
  }

  /** The number of system messages in `log`. */
  function SystemMessageCount(log: seq<Message>): nat {
    if |log| == 0 then 0
    else SystemMessageCount(log[..|log| - 1]) + (if log[|log| - 1].SystemMessage? then 1 else 0)
  }

  lemma {:induction false} ToolCallCountAppend(a: seq<Message>, b: seq<Message>)
    ensures ToolCallCount(a + b) == ToolCallCount(a) + ToolCallCount(b)
    decreases |b|
  {
    if |b| == 0 {
      assert a + b == a;
    } else {
      var b' := b[..|b| - 1];
      assert (a + b)[..|a + b| - 1] == a + b';
      ToolCallCountAppend(a, b');
    }
  }

  lemma {:induction false} ToolMessageCountAppend(a: seq<Message>, b: seq<Message>)
    ensures ToolMessageCount(a + b) == ToolMessageCount(a) + ToolMessageCount(b)
    decreases |b|
  {
    if |b| == 0 {
      assert a + b == a;
    } else {
      var b' := b[..|b| - 1];
      assert (a + b)[..|a + b| - 1] == a + b';
      ToolMessageCountAppend(a, b');
    }
  }

  lemma {:induction false} SystemMessageCountAppend(a: seq<Message>, b: seq<Message>)
    ensures SystemMessageCount(a + b) == SystemMessageCount(a) + SystemMessageCount(b)
    decreases |b|
  {
    if |b| == 0 {
      assert a + b == a;
    } else {
      var b' := b[..|b| - 1];
      assert (a + b)[..|a + b| - 1] == a + b';
      SystemMessageCountAppend(a, b');
    }
  }

  /** A run of tool messages holds no tool call. */
  lemma {:induction false} ToolMessagesHaveNoCalls(answers: seq<Message>)
    requires forall i :: 0 <= i < |answers| ==> answers[i].ToolMessage?
    ensures ToolCallCount(answers) == 0
    ensures ToolMessageCount(answers) == |answers|
    decreases |answers|
  {
    if |answers| > 0 {
      ToolMessagesHaveNoCalls(answers[..|answers| - 1]);
    }
  }

  /** A model reply followed by its answers adds as many tool messages as
      the reply requested tool calls. */
  lemma RoundCountsBalance(reply: Message, answers: seq<Message>)
    requires reply.AiMessage? && Answers(reply.toolCalls, answers)
    ensures ToolCallCount([reply] + answers) == |reply.toolCalls|
    ensures ToolMessageCount([reply] + answers) == |reply.toolCalls|
  {
    ToolMessagesHaveNoCalls(answers);
    ToolCallCountAppend([reply], answers);
    ToolMessageCountAppend([reply], answers);
    assert [reply][..0] == [];
  }
}

=== FILE: tools.dfy ===
/**
 Tools as the agent loop sees them: a named callable from call arguments to
 an outcome, and the `{tool.name: tool for tool in tools}` registry built
 from a list of them.
 */
module Tools {
  import opened Values
  import opened Messages

  /** What `tool.invoke(args)` does: returns a value, raises an exception
      out of the tool body, or is refused by the argument schema before the
      body runs (a missing or non-string parameter). */
  datatype ToolOutcome =
    | Returned(value: Value)
    | Raised(exc: Exc)
    | Rejected(field: string)

  /** A tool: a function of its call arguments.  Whatever the tool does to
      the outside world (running code, querying a database) is folded into
      this function. */
  type Tool = Args -> ToolOutcome

  /** A tool together with the name the decorator gives it. */
  datatype NamedTool = NamedTool(name: string, invoke: Tool)

  /** A registry from tool name to tool. */
  type Registry = map<string, Tool>

  /** The names of `tools`. */
  function Names(tools: seq<NamedTool>): set<string> {
    set i | 0 <= i < |tools| :: tools[i].name
  }

  /** The dict comprehension `{tool.name: tool for tool in tools}`: every
      listed name is a key, nothing else is, and when two tools share a name
      the later one wins. */
  function ByName(tools: seq<NamedTool>): (r: Registry)
    ensures r.Keys == Names(tools)
    ensures forall i :: 0 <= i < |tools| && LastWithName(tools, i) ==> r[tools[i].name] == tools[i].invoke
    decreases |tools|
  {
    if |tools| == 0 then map[]
    else
      var front := tools[..|tools| - 1];
      var last := tools[|tools| - 1];
      NamesSnoc(tools);
      LastWithNameOfFront(tools);
      assert forall i :: 0 <= i < |front| ==> front[i] == tools[i];
      ByName(front)[last.name := last.invoke]
  }

  /** The names of a list are those of all but its last tool, plus the last
      tool's. */
  lemma NamesSnoc(tools: seq<NamedTool>)
    requires |tools| > 0
    ensures Names(tools) == Names(tools[..|tools| - 1]) + {tools[|tools| - 1].name}
  {
    var front := tools[..|tools| - 1];
    forall n | n in Names(tools) ensures n in Names(front) + {tools[|tools| - 1].name} {
      var i :| 0 <= i < |tools| && tools[i].name == n;
      if i < |tools| - 1 { assert front[i] == tools[i]; }
    }
  }

  /** A tool that is the last with its name in a list is also the last with
      its name once the final tool is dropped. */
  lemma LastWithNameOfFront(tools: seq<NamedTool>)
    requires |tools| > 0
    ensures forall i :: 0 <= i < |tools| - 1 && LastWithName(tools, i) ==> LastWithName(tools[..|tools| - 1], i)
  {
  }

  /** No tool after position `i` shares the name of `tools[i]`. */
  predicate LastWithName(tools: seq<NamedTool>, i: nat)
    requires i < |tools|
  {
    forall j :: i < j < |tools| ==> tools[j].name != tools[i].name
  }

  /** The names of `tools` are pairwise distinct. */
  predicate DistinctNames(tools: seq<NamedTool>) {
    forall i, j :: 0 <= i < j < |tools| ==> tools[i].name != tools[j].name
  }

  /** With distinct names, the registry hands back each listed tool under
      its own name. */
  lemma ByNameDistinct(tools: seq<NamedTool>)
    requires DistinctNames(tools)
    ensures forall i :: 0 <= i < |tools| ==> ByName(tools)[tools[i].name] == tools[i].invoke
  {
    forall i | 0 <= i < |tools| ensures ByName(tools)[tools[i].name] == tools[i].invoke {
      assert LastWithName(tools, i);
    }
  }

  /** The string parameter `field` of a call, as the argument schema of a
      tool declared `field: str` reads it. */
  function StringArg(args: Args, field: string): (r: Result<string, string>)
    ensures r.Ok? <==> field in args && args[field].Str?
    ensures r.Ok? ==> Str(r.value) == args[field]
    ensures r.Err? ==> r.error == field
  {
    if field in args && args[field].Str? then Ok(args[field].s) else Err(field)
  }
}

=== FILE: transcript.dfy ===
/**
 The shape of what the agent loop appends to the log: tool rounds, each a
 model reply that requests tools followed by one answer per request, and
 finally a reply that requests none.
 */
module Transcript {
  import opened Messages

  /** `seg` is a sequence of complete tool rounds. */
  predicate Rounds(seg: seq<Message>)
    decreases |seg|
  {
    || |seg| == 0
    || (&& IsToolRequest(seg[0])
        && 1 + |seg[0].toolCalls| <= |seg|
        && Answers(seg[0].toolCalls, seg[1..1 + |seg[0].toolCalls|])
        && Rounds(seg[1 + |seg[0].toolCalls|..]))
  }

  /** Complete rounds, then a reply whose tool requests are not yet answered. */
  predicate Pending(seg: seq<Message>) {
    |seg| > 0 && Rounds(seg[..|seg| - 1]) && IsToolRequest(seg[|seg| - 1])
  }

  /** Complete rounds, then a final reply that requests no tool. */
  predicate Completed(seg: seq<Message>) {
    |seg| > 0 && Rounds(seg[..|seg| - 1]) && IsToolFreeReply(seg[|seg| - 1])
  }

  /** The tool message at `j` answers call `j - i - 1` of the reply at `i`,
      and only tool messages stand between them: it answers the most recent
      model reply. */
  predicate AnsweredAt(seg: seq<Message>, i: int, j: int) {
    && 0 <= i < j < |seg|
    && seg[i].AiMessage?
    && j - i <= |seg[i].toolCalls|
    && seg[j].ToolMessage?
    && seg[j].toolCallId == seg[i].toolCalls[j - i - 1].id
    && seg[j].name == seg[i].toolCalls[j - i - 1].name
    && forall m :: i < m < j ==> seg[m].ToolMessage?
  }

  /** Appending one more complete round keeps a sequence of rounds. */
  lemma {:induction false} RoundsAppend(a: seq<Message>, reply: Message, answers: seq<Message>)
    requires Rounds(a) && IsToolRequest(reply) && Answers(reply.toolCalls, answers)
    ensures Rounds(a + [reply] + answers)
    decreases |a|
  {
    var s := a + [reply] + answers;
    if |a| == 0 {
      assert s == [reply] + answers;
      assert s[1..1 + |reply.toolCalls|] == answers;
      assert s[1 + |reply.toolCalls|..] == [];
    } else {
      var k := |a[0].toolCalls|;
      var rest := a[1 + k..];
      RoundsAppend(rest, reply, answers);
      assert s[0] == a[0];
      assert s[1..1 + k] == a[1..1 + k];
      assert s[1 + k..] == rest + [reply] + answers;
    }
  }

  /** Rounds hold only model replies and tool messages. */
  lemma {:induction false} RoundsHoldRepliesAndAnswers(seg: seq<Message>)
    requires Rounds(seg)
    ensures forall j :: 0 <= j < |seg| ==> seg[j].AiMessage? || seg[j].ToolMessage?
    decreases |seg|
  {
    if |seg| > 0 {
      var k := |seg[0].toolCalls|;
      var rest := seg[1 + k..];
      RoundsHoldRepliesAndAnswers(rest);
      forall j | 0 <= j < |seg| ensures seg[j].AiMessage? || seg[j].ToolMessage? {
        if 1 <= j <= k {
          assert seg[j] == seg[1..1 + k][j - 1];
        } else if j > k {
          assert seg[j] == rest[j - 1 - k];
        }
      }
    }
  }

  /** In complete rounds every requested tool call has been answered: as
      many tool messages as tool calls. */
  lemma {:induction false} RoundsBalance(seg: seq<Message>)
    requires Rounds(seg)
    ensures ToolCallCount(seg) == ToolMessageCount(seg)
    decreases |seg|
  {
    if |seg| > 0 {
      var k := |seg[0].toolCalls|;
      var round := seg[..1 + k];
      var rest := seg[1 + k..];
      RoundsBalance(rest);
      assert round == [seg[0]] + seg[1..1 + k];
      RoundCountsBalance(seg[0], seg[1..1 + k]);
      assert seg == round + rest;
      ToolCallCountAppend(round, rest);
      ToolMessageCountAppend(round, rest);
    }
  }

  /** Every tool message in complete rounds answers, by id and name, the
      call at its own position in the most recent model reply. */
  lemma {:induction false} RoundsAnswerLatestReply(seg: seq<Message>)
    requires Rounds(seg)
    ensures forall j :: 0 <= j < |seg| && seg[j].ToolMessage? ==> exists i :: AnsweredAt(seg, i, j)
    decreases |seg|
  {
    if |seg| > 0 {
      var k := |seg[0].toolCalls|;
      var rest := seg[1 + k..];
      RoundsAnswerLatestReply(rest);
      forall j | 0 <= j < |seg| && seg[j].ToolMessage? ensures exists i :: AnsweredAt(seg, i, j) {
        if j <= k {
          assert forall m :: 1 <= m <= k ==> seg[m] == seg[1..1 + k][m - 1];
          assert AnsweredAt(seg, 0, j);
        } else {
          assert rest[j - 1 - k] == seg[j];
          var i' :| AnsweredAt(rest, i', j - 1 - k);
          assert forall m :: 0 <= m < |rest| ==> rest[m] == seg[m + 1 + k];
          assert AnsweredAt(seg, i' + 1 + k, j);
        }
      }
    }
  }
}

=== FILE: values.dfy ===
/**
 The Python values the agents exchange, reduced to what the agent loop and
 its tools observe of them.
 */
module Values {

  /** Either a value or the error that replaced it; used wherever a Python
      call may raise. */
  datatype Result<+T, +E> = Ok(value: T) | Err(error: E)

  /** A JSON-like Python value, reduced to the shapes the agents inspect:
      `None`, a `str`, a `list` or a `dict` with string keys.  Numbers and
      booleans inside tool arguments and plotly figure dictionaries are not
      told apart from other values; nothing in the loop reads them. */
  datatype Value =
    | Null
    | Str(s: string)
    | List(items: seq<Value>)
    | Dict(fields: map<string, Value>)

  /** A raised Python exception.  `isException` tells an `Exception`
      subclass from a bare `BaseException` (KeyboardInterrupt, SystemExit),
      which `except Exception` does not catch; `text` and `repr` are its
      `str(e)` and `repr(e)` renderings, kept opaque. */
  datatype Exc = Exc(isException: bool, text: string, repr: string)

  /** `s` begins with `p`. */
  predicate StartsWith(s: string, p: string) {
    |p| <= |s| && s[..|p|] == p
  }

  /** `s` ends with `p`. */
  predicate EndsWith(s: string, p: string) {
    |p| <= |s| && s[|s| - |p|..] == p
  }
}
